=== FILE: README.md ===
# NikoNikoChat relay, modelled in Dafny

NikoNikoChat is a UDP chat relay with a "marquee" client. The relay
(`ChatServer` in `server.py`) keeps a dict from client address to the time
the client was last heard from. Each inbound datagram refreshes the sender's
entry. The payload is then classified: `heartbeat` is answered with
`heartbeat_ack`, `heartbeat_ack` is absorbed, and anything else is broadcast
verbatim to every tracked client, the sender included. A client whose send
fails is dropped. A second loop wakes every heartbeat interval, probes every
client with `heartbeat`, and evicts the clients whose probe failed or that
have been silent for more than 1.5 intervals. The client (`client.py`)
answers probes, ignores acks, logs every message except `heartbeat` newest
first, scrolls chat lines at a length-dependent speed, and composes outgoing
lines as `name: text`.

The model turns each loop iteration into a pure step function:

- `wire.dfy` (`Wire`): addresses, datagrams, and the two control payloads.
- `registry.dfy` (`ClientRegistry`): the client dict. A Python dict iterates
  in insertion order, and both loops send in that order, so the dict is an
  association list `seq<Client>`. `ToMap` gives its `map<Address, int>`
  view, and every operation is specified against that view. `Valid` says no
  address occurs twice, and every step preserves it.
- `server.dfy` (`RelayServer`): `Receive` is one pass of `handle_client`,
  `Broadcast` is `broadcast`, and `Sweep` is one wake-up of
  `check_heartbeat`. Each returns the new table and the list of `sendto`
  attempts in order. A `failing: set<Address>` parameter names the
  destinations whose `sendto` raises. A failed send is still listed as an
  attempt.
- `client.py` is modelled in `client.dfy` (`ChatClient`): `GetSpeed`
  (`Marquee.get_speed`), `StartText`, `UpdateLog`, `ReceiveMessage` (one
  pass of `receive_messages`), and `SendText`.
- `scenarios.dfy` (`Scenarios`): properties that span both programs.

Time is in integer ticks. The staleness test `now - last > interval * 1.5`
becomes `2 * (now - last) > 3 * interval`, and
`StaleIsOneAndAHalfIntervals` proves this equals the comparison over reals.
A datagram that fails to decode is the payload `None`.

## Model

| member | source | states |
|---|---|---|
| `ClientRegistry.Upsert` | server.py:31-35 | `clients[address] = now` maps the address to `now` and leaves every other entry unchanged. A tracked address keeps its place in iteration order; a new one is appended at the end. |
| `ClientRegistry.UpsertValid` | server.py:31-35 | Recording a datagram never makes an address appear twice. |
| `ClientRegistry.ToMapKeys` | server.py:56 | The snapshot `list(self.clients)` contains exactly the tracked addresses. |
| `ClientRegistry.ToMapValues` | server.py:64 | In a table with no duplicates, `self.clients[client]` returns that client's own last-seen tick. |
| `ClientRegistry.Without` | server.py:22-23 | Removing a set of addresses removes exactly those keys. Remaining entries stay verbatim, and `ClientRegistry.WithoutSubsequence` shows they keep their order. Removing only untracked addresses returns the table unchanged. |
| `ClientRegistry.WithoutSubsequence` | server.py:22-23 | After a removal, the remaining entries keep their relative order from the old table. |
| `ClientRegistry.WithoutValid` | server.py:22-23 | Removing entries never makes an address appear twice. |
| `ClientRegistry.Pop` | server.py:23 | `pop(client, None)` removes only that key, and the other entries keep their order. On an absent key it returns the table unchanged. |
| `ClientRegistry.PopIdempotent` | server.py:70 | Evicting an address twice has the same effect as evicting it once. |
| `ClientRegistry.WithoutTwice` | server.py:68-70 | Two removals in a row equal one removal of the union. |
| `ClientRegistry.PopAll` | server.py:68-70 | Popping the marked addresses one at a time equals removing their set at once. The order of the list and repeats in it do not matter. |
| `RelayServer.Fanout` | server.py:14-20 | The send loop makes one attempt per snapshot address, in order, all with the same message. It collects exactly the snapshot addresses whose send failed. A failure does not stop the loop. |
| `RelayServer.Broadcast` | server.py:13-23 | Every tracked client gets one attempt carrying the message, in table order. The new table is the old one minus exactly the failing addresses, and survivors keep their ticks and their order. No duplicate address is introduced. |
| `RelayServer.BroadcastOncePerClient` | server.py:15-17 | In a table with no duplicates, a broadcast reaches each tracked address exactly once and reaches nobody else. |
| `RelayServer.Receive` | server.py:28-48 | Undecodable payload: table unchanged, nothing sent. `heartbeat`: exactly one `heartbeat_ack` goes to the source, and the source is set to `now`. `heartbeat_ack`: nothing is sent, even from a new address, and the source is set to `now`. Any other payload: the payload is sent verbatim to the source and to every tracked address, and to no one else. It is sent exactly once per entry of the refreshed table, in that table's iteration order. The table becomes the old one with the source set to `now`, minus the failing addresses. In every decoded case a tracked source keeps its place in the iteration order and a new source is appended. After a chat payload the surviving entries keep that order. |
| `RelayServer.ReceiveChatReachesAll` | server.py:43-45 | A chat payload is sent verbatim to its sender and to every previously tracked client. |
| `RelayServer.ReceiveRecordsSender` | server.py:31-35 | After any decoded datagram from A, A is tracked with last-seen `now`. The one exception is a chat payload whose send back to A failed; then A is absent. |
| `RelayServer.ReceiveChatOncePerClient` | server.py:43-45 | A chat payload produces exactly one attempt per address of the refreshed table, sender included, with no duplicates. |
| `RelayServer.StaleIsOneAndAHalfIntervals` | server.py:64 | The scaled integer test is exactly `now - lastSeen > interval * 1.5` over reals. |
| `RelayServer.Probe` | server.py:56-66 | The probe loop sends one `heartbeat` per snapshot address, in order. It marks exactly the addresses whose send failed or whose entry is stale. |
| `RelayServer.Sweep` | server.py:53-70 | A sweep sends one `heartbeat` to every pre-sweep client, in table order. The new table is the old one minus exactly the failing or stale clients: nothing is added, and survivors keep their ticks and their order. No duplicate address is introduced. |
| `RelayServer.SweepKeepsClientAtThreshold` | server.py:64 | A client silent for exactly 1.5 intervals whose probe succeeds is kept, because the comparison is strict. |
| `RelayServer.SweepIdempotent` | server.py:53-70 | A second sweep at the same tick with the same failures leaves the table unchanged. |
| `ChatClient.GetSpeed` | client.py:27-29 | The speed is never below `min_speed`. If `min_speed <= max_speed` it lies within `[min_speed, max_speed]`. It is `max_speed` minus one per ten characters until that reaches `min_speed`, and `min_speed` from then on. |
| `ChatClient.GetSpeedShortText` | client.py:28 | Texts shorter than 10 characters scroll at `max_speed` when `min_speed <= max_speed`. |
| `ChatClient.GetSpeedNonIncreasing` | client.py:28 | A longer text never scrolls faster. |
| `ChatClient.StartText` | client.py:21-25 | A chat text is started verbatim, at `get_speed(len(text))`. That is `max_speed - len(text) // 10` while this does not drop below `min_speed`, and `min_speed` from there on. With the defaults 2 and 10, a 50-character text scrolls at 5. With `min_speed <= max_speed` the speed lies in `[min_speed, max_speed]`, and a text under ten characters runs at `max_speed`. |
| `ChatClient.DefaultSpeedRange` | client.py:9 | With the default bounds 2 and 10, every text scrolls at 2 to 10. It scrolls at 10 below ten characters and at 2 from eighty characters on. |
| `ChatClient.UpdateLogRendersOnTop` | client.py:106-111 | A `heartbeat` leaves the log untouched. Any other message puts its line on top of the widget's text. |
| `ChatClient.LogNewestFirst` | client.py:106-111 | After any run of arrivals, the log holds exactly the non-`heartbeat` messages, newest first, above the old log. `heartbeat_ack` is logged. |
| `ChatClient.LoggedMembers` | client.py:107 | The log keeps exactly the arrivals whose message is not `heartbeat`, so `heartbeat_ack` is kept. |
| `ChatClient.ReceiveMessage` | client.py:73-90 | An undecodable payload ends the loop with no log entry, send, or display. `heartbeat` sends exactly one `heartbeat_ack` to the server and shows nothing; the loop stops only if that send fails. `heartbeat_ack` does nothing but log. Any other payload is started on the marquee exactly as `start_text` would start it: verbatim, at the clamped speed for its length. Every message except `heartbeat` is logged on top. Any exception in the loop ends it: an undecodable payload, a failing acknowledgement, a log widget call that raises for a non-`heartbeat` message (the log is then unchanged), or a marquee call that raises for a chat line (after it was logged). The loop stops exactly in these cases. |
| `ChatClient.SendText` | client.py:61-67 | A send is attempted exactly when name and text are both non-empty. The payload is exactly `name + ": " + text` and it goes to the server. The text field is cleared only when that send succeeds; a raising send leaves the text in place. |
| `ChatClient.SendTextSplits` | client.py:65 | If the name contains no colon, the sent payload splits back at its first `": "` into that name and text. |
| `ChatClient.SentLineIsChat` | client.py:64-66 | A composed chat line is never `heartbeat` or `heartbeat_ack`. |
| `Scenarios.HeartbeatRoundTrip` | server.py:37-42 | A sweep probes every tracked client. The client answers with one `heartbeat_ack` to the server and shows nothing. When the relay receives that payload on the table the sweep left, it sends nothing and sets only that client to the new tick. So there is no heartbeat ping-pong. |
| `Scenarios.ComposedLineIsRelayed` | server.py:43-45 | A line from `send_text` that reaches the relay is sent back to its sender and to every tracked client. This is stated for lines that fit the 1024-byte receive buffer. |
| `Scenarios.LastSeenAdvances` | server.py:31-35 | A client's last-seen tick strictly increases with each later datagram while it stays tracked. |
| `Scenarios.TwoClientSession` | server.py:13-70 | Alice and Bob join. `Alice: hello` reaches both, sender included. Alice then stays silent for two intervals and the next sweep evicts her. Bob's next line then reaches only Bob. |

## Left out

- Sockets: creating and binding them, `recvfrom`, `sendto`, and `print` logging (server.py:7-11, client.py:118-119). Payloads come in as `Option<string>`. Sends go out as a list of `Datagram` attempts, and `failing` (or `ackFails` and `sendFails` in the client) decides which sends raise. A `recvfrom` that raises is not modelled.
- Threads, the two infinite loops, and their interleaving (server.py:25-27, 50-52, 72-74; client.py:139). Each step is one atomic iteration. So the model omits the unguarded dict iteration at server.py:15 racing a concurrent pop, and the `KeyError` that server.py:64 can raise after a concurrent removal. The source has no lock around `self.clients`.
- Wall-clock time and `time.sleep` (server.py:52-53). Time is an integer tick given to each step. The `heartbeat_ack` branch calls `time.time()` a second time (server.py:42); the model uses the same tick for that call.
- The heartbeat interval is an integer number of ticks. A fractional interval in seconds can be represented by choosing a finer tick.
- The busy-wait `__main__` block (server.py:76-83) and the client's `main` (client.py:113-151).
- Byte encoding and decoding (server.py:29, client.py:66, client.py:77). Payloads are strings, and a decode failure is `None`.
- The tkinter and ctypes user interface. This covers canvas movement and deletion in `update_text_positions`, the random vertical placement in `start_text`, `make_window_transparent`, and the window and widget construction. `StartText` keeps only the text and its speed. Of the widget calls made inside the receive loop, the model keeps only whether one raises (`logFails`, `showFails`), because any exception there ends the loop.
- `datetime.now()` formatting in the log (client.py:109). The stamp is a string parameter of each log entry.
- ChatClient.SendTextSplits: the split back into name and text is stated only for names without a colon. A name containing `": "` makes the composed line ambiguous. The payload itself is stated for every name by `ChatClient.SendText`.
- The 1024-byte receive buffer (server.py:28, client.py:76). A payload is a whole string, so the model does not cover a datagram longer than the buffer. Depending on the platform, such a datagram is either truncated (and relayed cut short, or skipped when the cut splits a UTF-8 sequence) or makes `recvfrom` raise, which skips it without refreshing the sender.
- Scenarios.ComposedLineIsRelayed: holds only for lines whose encoding fits the 1024-byte receive buffer, for the reason above.

=== FILE: client.dfy ===
/** The pure parts of the marquee chat client: the scroll-speed clamp, the
    reaction to one received payload, the log window, and the composition of
    an outgoing chat line. Drawing, window handling and the clock are not
    modelled; the log's timestamp arrives as a parameter. */
module ChatClient {
  import opened Wrappers
  import opened Wire

  // ---------------------------------------------------------------------
  // Marquee.get_speed

  /** The speed bounds of a `Marquee`, in pixels per frame. */
  datatype Marquee = Marquee(minSpeed: int, maxSpeed: int)

  /** The constructor's defaults, `min_speed=2, max_speed=10`. */
  const DEFAULT_MARQUEE: Marquee := Marquee(2, 10)

  function Max(a: int, b: int): int { if a >= b then a else b }

  function Min(a: int, b: int): int { if a <= b then a else b }

  /** `get_speed(text_length)`: the maximum speed, one step slower per ten
      characters, never below the minimum. Python's `//` on a non-negative
      length is Dafny's `/`. */
  function GetSpeed(m: Marquee, textLength: nat): (speed: int)
    ensures speed >= m.minSpeed
    ensures m.minSpeed <= m.maxSpeed ==> m.minSpeed <= speed <= m.maxSpeed
    ensures textLength / 10 <= m.maxSpeed - m.minSpeed ==> speed == m.maxSpeed - textLength / 10
    ensures textLength / 10 >= m.maxSpeed - m.minSpeed ==> speed == m.minSpeed
  {
    Max(m.minSpeed, Min(m.maxSpeed, m.maxSpeed - textLength / 10))
  }

  /** Short texts scroll at the maximum speed. */
  lemma GetSpeedShortText(m: Marquee, textLength: nat)
    requires m.minSpeed <= m.maxSpeed && textLength < 10
    ensures GetSpeed(m, textLength) == m.maxSpeed
  {
  }

  /** With the default bounds a text scrolls at 2 to 10 pixels per frame:
      10 below ten characters, and 2 from eighty characters on. */
  lemma DefaultSpeedRange(textLength: nat)
    ensures 2 <= GetSpeed(DEFAULT_MARQUEE, textLength) <= 10
    ensures textLength < 10 ==> GetSpeed(DEFAULT_MARQUEE, textLength) == 10
    ensures textLength >= 80 ==> GetSpeed(DEFAULT_MARQUEE, textLength) == 2
  {
  }

  /** A longer text never scrolls faster. */
  lemma GetSpeedNonIncreasing(m: Marquee, shorter: nat, longer: nat)
    requires shorter <= longer
    ensures GetSpeed(m, longer) <= GetSpeed(m, shorter)
  {
  }

  /** A text launched on the marquee, with the speed it scrolls at. The
      random vertical placement is not modelled. */
  datatype Banner = Banner(text: string, speed: int)

  /** `start_text(display_text)`: the text scrolls verbatim, at the clamped
      speed for its length. */
  function StartText(m: Marquee, text: string): (b: Banner)
    ensures b.text == text
    ensures b.speed >= m.minSpeed
    ensures m.minSpeed <= m.maxSpeed ==> m.minSpeed <= b.speed <= m.maxSpeed
    ensures m.minSpeed <= m.maxSpeed && |text| < 10 ==> b.speed == m.maxSpeed
    ensures |text| / 10 <= m.maxSpeed - m.minSpeed ==> b.speed == m.maxSpeed - |text| / 10
    ensures |text| / 10 >= m.maxSpeed - m.minSpeed ==> b.speed == m.minSpeed
  {
    Banner(text, GetSpeed(m, |text|))
  }

  // ---------------------------------------------------------------------
  // update_log_window

  /** One line of the log window: the local time of arrival and the text. */
  datatype LogEntry = LogEntry(stamp: string, message: string)

  /** The text a log entry inserts into the widget. */
  function Line(e: LogEntry): string
  {
    e.stamp + " - " + e.message + "\n"
  }

  /** The widget's whole text, top line first. */
  function Render(log: seq<LogEntry>): string
  {
    if log == [] then "" else Line(log[0]) + Render(log[1..])
  }

  /** `update_log_window`: every message except exactly `heartbeat` is
      inserted at the top of the widget. */
  function UpdateLog(log: seq<LogEntry>, e: LogEntry): seq<LogEntry>
  {
    if e.message != HEARTBEAT then [e] + log else log
  }

  /** A `heartbeat` leaves the widget alone; any other message's line is
      inserted above the existing text, as `insert('1.0', …)` does. */
  lemma UpdateLogRendersOnTop(log: seq<LogEntry>, e: LogEntry)
    ensures e.message == HEARTBEAT ==> UpdateLog(log, e) == log
    ensures e.message != HEARTBEAT ==> Render(UpdateLog(log, e)) == Line(e) + Render(log)
  {
    if e.message != HEARTBEAT {
      assert ([e] + log)[1..] == log;
    }
  }

  /** The log after a run of arrivals, oldest first. */
  function LogAll(log: seq<LogEntry>, arrivals: seq<LogEntry>): seq<LogEntry>
    decreases |arrivals|
  {
    if arrivals == [] then log else LogAll(UpdateLog(log, arrivals[0]), arrivals[1..])
  }

  /** The arrivals that the log keeps, in arrival order. */
  function Logged(arrivals: seq<LogEntry>): seq<LogEntry>
  {
    if arrivals == [] then []
    else if arrivals[0].message != HEARTBEAT then [arrivals[0]] + Logged(arrivals[1..])
    else Logged(arrivals[1..])
  }

  /** The kept arrivals are exactly those whose message is not `heartbeat`,
      `heartbeat_ack` included. */
  lemma {:induction false} LoggedMembers(arrivals: seq<LogEntry>)
    ensures forall e :: e in Logged(arrivals) <==> e in arrivals && e.message != HEARTBEAT
  {
    if arrivals != [] {
      LoggedMembers(arrivals[1..]);
      assert arrivals == [arrivals[0]] + arrivals[1..];
    }
  }

  function Reverse<T>(s: seq<T>): seq<T>
  {
    if s == [] then [] else Reverse(s[1..]) + [s[0]]
  }

  /** After any run of arrivals the log holds exactly the non-`heartbeat`
      messages, newest on top, above what it held before. */
  lemma {:induction false} LogNewestFirst(log: seq<LogEntry>, arrivals: seq<LogEntry>)
    ensures LogAll(log, arrivals) == Reverse(Logged(arrivals)) + log
    decreases |arrivals|
  {
    if arrivals != [] {
      var e, rest := arrivals[0], arrivals[1..];
      var log' := UpdateLog(log, e);
      assert LogAll(log, arrivals) == LogAll(log', rest);
      LogNewestFirst(log', rest);
      var older := Reverse(Logged(rest));
      if e.message != HEARTBEAT {
        assert Logged(arrivals) == [e] + Logged(rest);
        assert ([e] + Logged(rest))[1..] == Logged(rest);
        assert Reverse(Logged(arrivals)) == older + [e];
        assert older + ([e] + log) == (older + [e]) + log;
      } else {
        assert Logged(arrivals) == Logged(rest);
      }
    }
  }

  // ---------------------------------------------------------------------
  // receive_messages

  /** What one pass of the client's receive loop produces: the log, the
      sends attempted, the banner started, and whether the loop goes on. */
  datatype Reaction = Reaction(log: seq<LogEntry>, sends: seq<Datagram>, shown: Option<Banner>, running: bool)

  /** One pass of `receive_messages`. A payload that does not decode
      (`None`) raises and ends the loop. Otherwise the message is logged,
      then `heartbeat` is answered with `heartbeat_ack` to the server,
      `heartbeat_ack` is ignored, and anything else is started on the
      marquee. Every exception inside the loop ends it: a failing
      acknowledgement (`ackFails`), a log widget call that raises while a
      non-`heartbeat` message is written (`logFails`, which leaves the log
      as it was), and a marquee call that raises while a chat line is
      started (`showFails`, after the line was logged). */
  function ReceiveMessage(m: Marquee, log: seq<LogEntry>, payload: Option<string>, stamp: string,
                          server: Address, ackFails: bool, logFails: bool, showFails: bool): (out: Reaction)
    ensures payload.None? ==> out.log == log && out.sends == [] && out.shown == None
    ensures !out.running <==>
      || payload.None?
      || (payload == Some(HEARTBEAT) && ackFails)
      || (payload.Some? && payload.value != HEARTBEAT && logFails)
      || (payload.Some? && IsChat(payload.value) && showFails)
    ensures out.sends != [] <==> payload == Some(HEARTBEAT)
    ensures payload == Some(HEARTBEAT) ==> out.sends == [Datagram(HEARTBEAT_ACK, server)] && out.log == log
    ensures out.shown.Some? <==> payload.Some? && IsChat(payload.value) && !logFails && !showFails
    ensures out.shown.Some? ==> out.shown.value == StartText(m, payload.value)
    ensures payload.Some? && payload.value != HEARTBEAT && !logFails ==>
      out.log == [LogEntry(stamp, payload.value)] + log
    ensures logFails ==> out.log == log
  {
    match payload
    case None => Reaction(log, [], None, false)
    case Some(message) =>
      if message == HEARTBEAT then
        Reaction(log, [Datagram(HEARTBEAT_ACK, server)], None, !ackFails)
      else if logFails then
        Reaction(log, [], None, false)
      else
        var log' := UpdateLog(log, LogEntry(stamp, message));
        if message == HEARTBEAT_ACK then
          Reaction(log', [], None, true)
        else if showFails then
          Reaction(log', [], None, false)
        else
          Reaction(log', [], Some(StartText(m, message)), true)
  }

  // ---------------------------------------------------------------------
  // send_text

  /** The outcome of pressing Send: the datagram attempted, if any, and what
      is left in the text field (the name field is never cleared). */
  datatype Submission = Submission(sent: Option<Datagram>, textField: string)

  /** `send_text`: attempts to send `name: text` to the server only when
      both fields are non-empty. The text field is cleared after the send,
      so a send that raises (`sendFails`) leaves the text in place. */
  function SendText(name: string, text: string, server: Address, sendFails: bool): (out: Submission)
    ensures out.sent.Some? <==> name != "" && text != ""
    ensures out.sent.Some? ==> out.sent.value == Datagram(name + ": " + text, server)
    ensures out.sent.Some? && !sendFails ==> out.textField == ""
    ensures out.sent.None? || sendFails ==> out.textField == text
  {
    if name != "" && text != "" then
      Submission(Some(Datagram(name + ": " + text, server)), if sendFails then text else "")
    else Submission(None, text)
  }

  /** Splits a chat line at its first `": "` into name and text. */
  function SplitLine(line: string): Option<(string, string)>
  {
    if |line| < 2 then None
    else if line[0] == ':' && line[1] == ' ' then Some(("", line[2..]))
    else
      match SplitLine(line[1..])
      case None => None
      case Some((name, text)) => Some(([line[0]] + name, text))
  }

  /** A sent chat line gives back its name and text, provided the name
      holds no colon. */
  lemma {:induction false} SendTextSplits(name: string, text: string, server: Address, sendFails: bool)
    requires name != "" && text != "" && ':' !in name
    ensures SplitLine(SendText(name, text, server, sendFails).sent.value.payload) == Some((name, text))
  {
    SplitAfterName(name, text);
  }

  lemma {:induction false} SplitAfterName(name: string, text: string)
    requires ':' !in name
    ensures SplitLine(name + ": " + text) == Some((name, text))
    decreases |name|
  {
    var line := name + ": " + text;
    if name == [] {
      assert line == ": " + text;
      assert line[2..] == text;
    } else {
      assert line[1..] == name[1..] + ": " + text;
      SplitAfterName(name[1..], text);
      assert [line[0]] + name[1..] == name;
    }
  }

  /** A line composed by `send_text` is never a control payload: it holds
      `": "` right after the non-empty name, and neither control word has a
      colon. */
  lemma SentLineIsChat(name: string, text: string, server: Address, sendFails: bool)
    requires name != "" && text != ""
    ensures IsChat(SendText(name, text, server, sendFails).sent.value.payload)
  {
    var line := name + ": " + text;
    assert line[|name|] == ':';
    assert ':' !in HEARTBEAT && ':' !in HEARTBEAT_ACK;
  }
}

=== FILE: registry.dfy ===
/** The relay's table of connected clients (`ChatServer.clients`): a Python
    dict from address to the time the address was last heard from. A dict
    iterates in insertion order, and both the broadcast and the heartbeat
    sweep send in that order, so the table is modelled as an association
    list; `ToMap` is its dictionary view, against which the operations are
    specified. */
module ClientRegistry {
  import opened Wire

  /** One tracked client and the tick of its latest datagram. */
  datatype Client = Client(address: Address, lastSeen: int)

  /** Entries in dict iteration order. */
  type Registry = seq<Client>

  /** `list(self.clients)`: the tracked addresses in iteration order. */
  function Snapshot(r: Registry): seq<Address>
  {
    seq(|r|, i requires 0 <= i < |r| => r[i].address)
  }

  /** A dict holds each key once. */
  ghost predicate Valid(r: Registry)
  {
    NoDuplicates(Snapshot(r))
  }

  /** Consing an entry conses its address onto the snapshot. */
  lemma SnapshotCons(c: Client, r: Registry)
    ensures Snapshot([c] + r) == [c.address] + Snapshot(r)
  {
  }

  /** A consed table is valid exactly when its head is new to a valid tail. */
  lemma ValidCons(c: Client, r: Registry)
    ensures Valid([c] + r) <==> c.address !in Snapshot(r) && Valid(r)
  {
    SnapshotCons(c, r);
    var s := Snapshot([c] + r);
    if Valid([c] + r) {
      forall i, j | 0 <= i < j < |Snapshot(r)|
        ensures Snapshot(r)[i] != Snapshot(r)[j]
      {
        assert s[i + 1] == Snapshot(r)[i] && s[j + 1] == Snapshot(r)[j];
      }
      forall k | 0 <= k < |Snapshot(r)|
        ensures Snapshot(r)[k] != c.address
      {
        assert s[0] == c.address && s[k + 1] == Snapshot(r)[k];
      }
    }
  }

  /** The dictionary view: address to last-seen tick. */
  function ToMap(r: Registry): map<Address, int>
  {
    if r == [] then map[] else ToMap(r[1..])[r[0].address := r[0].lastSeen]
  }

  /** The view's keys are exactly the tracked addresses. */
  lemma {:induction false} ToMapKeys(r: Registry)
    ensures forall a :: a in ToMap(r) <==> a in Snapshot(r)
  {
    if r != [] {
      ToMapKeys(r[1..]);
      assert r == [r[0]] + r[1..];
      SnapshotCons(r[0], r[1..]);
    }
  }

  /** In a valid table the view reads back every entry's own tick. */
  lemma {:induction false} ToMapValues(r: Registry)
    requires Valid(r)
    ensures forall i :: 0 <= i < |r| ==> r[i].address in ToMap(r) && ToMap(r)[r[i].address] == r[i].lastSeen
  {
    if r != [] {
      assert r == [r[0]] + r[1..];
      ValidCons(r[0], r[1..]);
      ToMapValues(r[1..]);
      forall i | 1 <= i < |r|
        ensures r[i].address != r[0].address
      {
        assert Snapshot(r)[0] == r[0].address && Snapshot(r)[i] == r[i].address;
      }
    }
  }

  /** The table's size is its number of distinct addresses. */
  lemma {:induction false} ToMapSize(r: Registry)
    requires Valid(r)
    ensures |ToMap(r)| == |r|
  {
    if r != [] {
      assert r == [r[0]] + r[1..];
      ValidCons(r[0], r[1..]);
      ToMapSize(r[1..]);
      ToMapKeys(r[1..]);
    }
  }

  /** `self.clients[a] = now`: refreshes a tracked address in place, or
      appends a new one at the end of the iteration order. */
  function Upsert(r: Registry, a: Address, now: int): (r': Registry)
    ensures ToMap(r') == ToMap(r)[a := now]
    ensures a in Snapshot(r) ==> Snapshot(r') == Snapshot(r)
    ensures a !in Snapshot(r) ==> Snapshot(r') == Snapshot(r) + [a]
  {
    if r == [] then [Client(a, now)]
    else
      assert r == [r[0]] + r[1..];
      SnapshotCons(r[0], r[1..]);
      if r[0].address == a then
        SnapshotCons(Client(a, now), r[1..]);
        [Client(a, now)] + r[1..]
      else
        var rest := Upsert(r[1..], a, now);
        var r' := [r[0]] + rest;
        assert r'[0] == r[0] && r'[1..] == rest;
        SnapshotCons(r[0], rest);
        r'
  }

  /** Refreshing or adding an address never duplicates one. */
  lemma UpsertValid(r: Registry, a: Address, now: int)
    ensures Valid(r) ==> Valid(Upsert(r, a, now))
  {
  }

  /** `s` is `t` with some elements left out, the rest in their order. */
  predicate IsSubsequence<T(==)>(s: seq<T>, t: seq<T>)
  {
    if s == [] then true
    else if t == [] then false
    else if s[0] == t[0] then IsSubsequence(s[1..], t[1..])
    else IsSubsequence(s, t[1..])
  }

  /** Dropping the first element keeps a subsequence. */
  lemma {:induction false} SubsequenceTail<T>(s: seq<T>, t: seq<T>)
    requires s != [] && IsSubsequence(s, t)
    ensures IsSubsequence(s[1..], t)
    decreases |s| + |t|, 0
  {
    if s[0] == t[0] {
      SubsequenceCons(s[1..], t[1..], t[0]);
    } else {
      SubsequenceTail(s, t[1..]);
      SubsequenceCons(s[1..], t[1..], t[0]);
    }
    assert [t[0]] + t[1..] == t;
  }

  /** A subsequence of a tail is a subsequence of the whole. */
  lemma {:induction false} SubsequenceCons<T>(s: seq<T>, t: seq<T>, x: T)
    requires IsSubsequence(s, t)
    ensures IsSubsequence(s, [x] + t)
    decreases |s| + |t|, 1
  {
    var u := [x] + t;
    assert u[0] == x && u[1..] == t;
    if s != [] && s[0] == x {
      SubsequenceTail(s, t);
    }
  }

  /** Removes every entry whose address is in `gone`; the other entries
      stay as they were, in their order. */
  function Without(r: Registry, gone: set<Address>): (r': Registry)
    ensures ToMap(r') == ToMap(r) - gone
    ensures forall c :: c in r' <==> c in r && c.address !in gone
    ensures forall a :: a in Snapshot(r') <==> a in Snapshot(r) && a !in gone
    ensures (forall a :: a in Snapshot(r) ==> a !in gone) ==> r' == r
  {
    if r == [] then []
    else
      assert r == [r[0]] + r[1..];
      SnapshotCons(r[0], r[1..]);
      var rest := Without(r[1..], gone);
      if r[0].address in gone then rest
      else
        var r' := [r[0]] + rest;
        assert r'[0] == r[0] && r'[1..] == rest;
        SnapshotCons(r[0], rest);
        r'
  }

  /** Removal keeps the other entries in their order. */
  lemma {:induction false} WithoutSubsequence(r: Registry, gone: set<Address>)
    ensures IsSubsequence(Without(r, gone), r)
  {
    if r != [] {
      var rest := Without(r[1..], gone);
      WithoutSubsequence(r[1..], gone);
      assert r == [r[0]] + r[1..];
      if r[0].address in gone {
        SubsequenceCons(rest, r[1..], r[0]);
      } else {
        var r' := Without(r, gone);
        assert r'[0] == r[0] && r'[1..] == rest;
      }
    }
  }

  /** Removing entries never duplicates an address. */
  lemma {:induction false} WithoutValid(r: Registry, gone: set<Address>)
    ensures Valid(r) ==> Valid(Without(r, gone))
  {
    if r != [] && Valid(r) {
      assert r == [r[0]] + r[1..];
      ValidCons(r[0], r[1..]);
      WithoutValid(r[1..], gone);
      if r[0].address !in gone {
        var rest := Without(r[1..], gone);
        assert Without(r, gone) == [r[0]] + rest;
        ValidCons(r[0], rest);
      }
    }
  }

  /** `self.clients.pop(a, None)`: removes `a` if tracked, otherwise a no-op. */
  function Pop(r: Registry, a: Address): (r': Registry)
    ensures ToMap(r') == ToMap(r) - {a}
    ensures a !in Snapshot(r) ==> r' == r
    ensures IsSubsequence(r', r)
  {
    WithoutSubsequence(r, {a});
    Without(r, {a})
  }

  /** The elements of a sequence of addresses. */
  function Elements(xs: seq<Address>): set<Address>
  {
    set x | x in xs
  }

  /** `for a in xs: self.clients.pop(a, None)`; equal to removing the whole
      set at once, so neither the order of `xs` nor repeats in it matter. */
  function PopAll(r: Registry, xs: seq<Address>): (r': Registry)
    ensures r' == Without(r, Elements(xs))
    decreases |xs|
  {
    if xs == [] then
      assert Without(r, {}) == r;
      r
    else
      WithoutTwice(r, {xs[0]}, Elements(xs[1..]));
      assert {xs[0]} + Elements(xs[1..]) == Elements(xs);
      PopAll(Pop(r, xs[0]), xs[1..])
  }

  /** Removing two sets one after the other removes their union. */
  lemma {:induction false} WithoutTwice(r: Registry, s: set<Address>, t: set<Address>)
    ensures Without(Without(r, s), t) == Without(r, s + t)
  {
    if r != [] {
      WithoutTwice(r[1..], s, t);
      if r[0].address !in s {
        assert Without(r, s)[1..] == Without(r[1..], s);
      }
    }
  }

  /** Evicting an address twice is evicting it once. */
  lemma PopIdempotent(r: Registry, a: Address)
    ensures Pop(Pop(r, a), a) == Pop(r, a)
  {
  }
}

=== FILE: scenarios.dfy ===
/** Properties that span the relay and its clients: the heartbeat round
    trip, the relaying of a composed chat line, and a two-client session. */
module Scenarios {
  import opened Wrappers
  import opened Wire
  import opened ClientRegistry
  import opened RelayServer
  import opened ChatClient

  /** Heartbeat round trip: a sweep probes the tracked client `a`; the
      client answers with exactly one `heartbeat_ack` to the server and
      shows nothing; the relay, receiving that very payload from `a` on the
      table the sweep left, sends nothing (no ping-pong) and records `a` as
      seen at `later`, touching no other entry. */
  lemma HeartbeatRoundTrip(r: Registry, now: int, interval: int, failing: set<Address>,
                           a: Address, server: Address, m: Marquee, log: seq<LogEntry>,
                           stamp: string, later: int)
    requires a in ToMap(r)
    ensures var swept := Sweep(r, now, interval, failing);
      var reply := ReceiveMessage(m, log, Some(HEARTBEAT), stamp, server, false, false, false);
      var back := Receive(swept.registry, later, Some(reply.sends[0].payload), a, failing);
      && Datagram(HEARTBEAT, a) in swept.sends
      && reply.sends == [Datagram(HEARTBEAT_ACK, server)]
      && reply.shown == None
      && reply.running
      && back.sends == []
      && ToMap(back.registry) == ToMap(swept.registry)[a := later]
  {
    ToMapKeys(r);
    var sends := Sweep(r, now, interval, failing).sends;
    var k :| 0 <= k < |Snapshot(r)| && Snapshot(r)[k] == a;
    assert Destinations(sends)[k] == a;
    assert sends[k] == Datagram(HEARTBEAT, a);
  }

  /** A chat line composed by a client at `src`, sent successfully and
      received by the relay, is relayed verbatim to the sender and to every
      tracked client. This holds for lines whose encoding fits the relay's
      1024-byte receive buffer; longer datagrams are not modelled. */
  lemma ComposedLineIsRelayed(r: Registry, now: int, name: string, text: string, src: Address,
                              server: Address, failing: set<Address>)
    requires name != "" && text != ""
    ensures var line := SendText(name, text, server, false).sent.value.payload;
      var out := Receive(r, now, Some(line), src, failing);
      && Datagram(line, src) in out.sends
      && (forall a :: a in ToMap(r) ==> Datagram(line, a) in out.sends)
  {
    SentLineIsChat(name, text, server, false);
    ReceiveChatReachesAll(r, now, SendText(name, text, server, false).sent.value.payload, src, failing);
  }

  /** The last-seen tick of a client strictly grows with each datagram it
      sends at a later tick, as long as it stays tracked. */
  lemma LastSeenAdvances(r: Registry, t1: int, t2: int, p1: string, p2: string, a: Address,
                         failing: set<Address>)
    requires t1 < t2
    requires !(IsChat(p1) && a in failing) && !(IsChat(p2) && a in failing)
    ensures var r1 := Receive(r, t1, Some(p1), a, failing).registry;
      var r2 := Receive(r1, t2, Some(p2), a, failing).registry;
      a in ToMap(r1) && a in ToMap(r2) && ToMap(r1)[a] < ToMap(r2)[a]
  {
    var r1 := Receive(r, t1, Some(p1), a, failing).registry;
    ReceiveRecordsSender(r, t1, p1, a, failing);
    ReceiveRecordsSender(r1, t2, p2, a, failing);
  }

  const ALICE: Address := Address("10.0.0.1", 5001)
  const BOB: Address := Address("10.0.0.2", 5002)

  /** Two-client session with a heartbeat interval of 2 ticks: Alice and
      Bob each send a chat line, Alice's `Alice: hello` reaches both (the
      sender is not excluded); Alice then falls silent while Bob answers a
      probe, and the sweep at tick 6 (4 ticks, two intervals, after
      Alice's last datagram) evicts Alice only, so Bob's next line reaches
      only Bob. */
  lemma TwoClientSession()
    ensures var r1 := Receive([], 0, Some("Alice: hi"), ALICE, {}).registry;
      var r2 := Receive(r1, 1, Some("Bob: hi"), BOB, {}).registry;
      var hello := Receive(r2, 2, Some("Alice: hello"), ALICE, {});
      var r3 := Receive(hello.registry, 5, Some(HEARTBEAT_ACK), BOB, {}).registry;
      var swept := Sweep(r3, 6, 2, {});
      var last := Receive(swept.registry, 7, Some("Bob: bye"), BOB, {});
      && hello.sends == [Datagram("Alice: hello", ALICE), Datagram("Alice: hello", BOB)]
      && swept.registry == [Client(BOB, 5)]
      && last.sends == [Datagram("Bob: bye", BOB)]
  {
    AliceJoins();
    BobJoins();
    AliceSaysHello();
    BobAcks();
    SweepEvictsAlice();
    BobAlone();
  }

  /** Alice's first line registers her at tick 0. */
  lemma AliceJoins()
    ensures Receive([], 0, Some("Alice: hi"), ALICE, {}).registry == [Client(ALICE, 0)]
  {
    assert Upsert([], ALICE, 0) == [Client(ALICE, 0)];
  }

  /** Bob's first line appends him after Alice. */
  lemma BobJoins()
    ensures Receive([Client(ALICE, 0)], 1, Some("Bob: hi"), BOB, {}).registry
         == [Client(ALICE, 0), Client(BOB, 1)]
  {
    assert ALICE != BOB;
    assert [Client(ALICE, 0)][1..] == [];
    assert Upsert([], BOB, 1) == [Client(BOB, 1)];
    assert Upsert([Client(ALICE, 0)], BOB, 1) == [Client(ALICE, 0)] + Upsert([], BOB, 1);
    var seen := Upsert([Client(ALICE, 0)], BOB, 1);
    assert seen == [Client(ALICE, 0), Client(BOB, 1)];
    assert Without(seen, {}) == seen;
  }

  /** Alice's line refreshes her tick and reaches Alice, then Bob, in table order. */
  lemma AliceSaysHello()
    ensures Receive([Client(ALICE, 0), Client(BOB, 1)], 2, Some("Alice: hello"), ALICE, {})
         == Step([Client(ALICE, 2), Client(BOB, 1)],
                 [Datagram("Alice: hello", ALICE), Datagram("Alice: hello", BOB)])
  {
    var seen := Upsert([Client(ALICE, 0), Client(BOB, 1)], ALICE, 2);
    assert seen == [Client(ALICE, 2), Client(BOB, 1)];
    assert Snapshot(seen) == [ALICE, BOB];
    assert Without(seen, {}) == seen;
    var sends := Broadcast(seen, "Alice: hello", {}).sends;
    assert Destinations(sends) == [ALICE, BOB];
  }

  /** Bob's `heartbeat_ack` only refreshes his tick and sends nothing. */
  lemma BobAcks()
    ensures Receive([Client(ALICE, 2), Client(BOB, 1)], 5, Some(HEARTBEAT_ACK), BOB, {})
         == Step([Client(ALICE, 2), Client(BOB, 5)], [])
  {
    assert Upsert([Client(ALICE, 2), Client(BOB, 1)], BOB, 5) == [Client(ALICE, 2), Client(BOB, 5)];
    assert Upsert([Client(ALICE, 2), Client(BOB, 5)], BOB, 5) == [Client(ALICE, 2), Client(BOB, 5)];
  }

  /** At tick 6 Alice, last seen at 2, is more than 1.5 intervals of 2 ticks
      old and is evicted; Bob, seen at 5, stays. */
  lemma SweepEvictsAlice()
    ensures Sweep([Client(ALICE, 2), Client(BOB, 5)], 6, 2, {}).registry == [Client(BOB, 5)]
  {
    var r := [Client(ALICE, 2), Client(BOB, 5)];
    assert r[1..] == [Client(BOB, 5)] && r[1..][1..] == [];
    assert ToMap(r[1..]) == map[BOB := 5];
    var clients := ToMap(r);
    assert clients == map[ALICE := 2, BOB := 5];
    assert Snapshot(r) == [ALICE, BOB];
    var marked := Probe(Snapshot(r), clients, 6, 2, {}).marked;
    assert Probe([BOB], clients, 6, 2, {}).marked == [];
    assert marked == [ALICE];
    assert Without(r, {ALICE}) == [Client(BOB, 5)];
  }

  /** With Alice gone, Bob's line reaches only Bob. */
  lemma BobAlone()
    ensures Receive([Client(BOB, 5)], 7, Some("Bob: bye"), BOB, {})
         == Step([Client(BOB, 7)], [Datagram("Bob: bye", BOB)])
  {
    var seen := Upsert([Client(BOB, 5)], BOB, 7);
    assert seen == [Client(BOB, 7)];
    assert Without(seen, {}) == seen;
    assert Destinations(Broadcast(seen, "Bob: bye", {}).sends) == [BOB];
  }
}

=== FILE: server.dfy ===
/** One iteration of each of `ChatServer`'s two loops, as a pure step over
    the client table: `Receive` is one pass of `handle_client`, `Sweep` one
    wake-up of `check_heartbeat`. Socket sends are returned as a list of
    attempts; `failing` names the destinations whose `sendto` raises. */
module RelayServer {
  import opened Wrappers
  import opened Wire
  import opened ClientRegistry

  /** The table after a step and the sends it attempted, in order. */
  datatype Step = Step(registry: Registry, sends: seq<Datagram>)

  // ---------------------------------------------------------------------
  // broadcast

  /** The outcome of `broadcast`'s sending loop: the attempts, in order,
      and the addresses whose send raised. */
  datatype Fanned = Fanned(sends: seq<Datagram>, failed: set<Address>)

  /** The sending loop of `broadcast`: one attempt per address, in order,
      collecting the addresses whose send raised. A failure does not stop
      the loop. */
  function Fanout(snapshot: seq<Address>, message: string, failing: set<Address>): (out: Fanned)
    ensures Destinations(out.sends) == snapshot
    ensures forall d :: d in out.sends ==> d.payload == message
    ensures forall a :: a in out.failed <==> a in snapshot && a in failing
  {
    if snapshot == [] then Fanned([], {})
    else
      var rest := Fanout(snapshot[1..], message, failing);
      var sends' := [Datagram(message, snapshot[0])] + rest.sends;
      assert Destinations(sends') == [snapshot[0]] + Destinations(rest.sends);
      Fanned(sends', if snapshot[0] in failing then {snapshot[0]} + rest.failed else rest.failed)
  }

  /** `broadcast(message)`: every tracked client gets one attempt, in table
      order, and exactly the clients whose send failed are dropped; the
      others keep their entries untouched. */
  function Broadcast(r: Registry, message: string, failing: set<Address>): (out: Step)
    ensures Destinations(out.sends) == Snapshot(r)
    ensures forall d :: d in out.sends ==> d.payload == message
    ensures ToMap(out.registry) == ToMap(r) - failing
    ensures IsSubsequence(out.registry, r)
    ensures Valid(r) ==> Valid(out.registry)
  {
    var fanned := Fanout(Snapshot(r), message, failing);
    var failed := fanned.failed;
    ToMapKeys(r);
    assert forall a :: a in ToMap(r) ==> (a in failed <==> a in failing);
    assert ToMap(r) - failed == ToMap(r) - failing;
    WithoutValid(r, failed);
    WithoutSubsequence(r, failed);
    Step(Without(r, failed), fanned.sends)
  }

  /** In a valid table a broadcast reaches every tracked address exactly
      once and nobody else. */
  lemma BroadcastOncePerClient(r: Registry, message: string, failing: set<Address>)
    requires Valid(r)
    ensures var out := Broadcast(r, message, failing);
      && NoDuplicates(Destinations(out.sends))
      && |out.sends| == |ToMap(r)|
      && forall a :: a in Destinations(out.sends) <==> a in ToMap(r)
  {
    ToMapKeys(r);
    ToMapSize(r);
  }

  // ---------------------------------------------------------------------
  // handle_client

  /** One pass of `handle_client`. A payload that does not decode (`None`)
      raises before the table is touched and is skipped. Otherwise the
      source is recorded as seen at `now`, then a `heartbeat` is answered
      with `heartbeat_ack`, a `heartbeat_ack` only refreshes the source
      again, and anything else is broadcast verbatim. */
  function Receive(r: Registry, now: int, payload: Option<string>, src: Address, failing: set<Address>): (out: Step)
    ensures payload.None? ==> out == Step(r, [])
    ensures payload == Some(HEARTBEAT) ==>
      out.sends == [Datagram(HEARTBEAT_ACK, src)] && ToMap(out.registry) == ToMap(r)[src := now]
    ensures payload == Some(HEARTBEAT_ACK) ==>
      out.sends == [] && ToMap(out.registry) == ToMap(r)[src := now]
    ensures payload.Some? && IsChat(payload.value) ==>
      && ToMap(out.registry) == ToMap(r)[src := now] - failing
      && (forall a :: a in Destinations(out.sends) <==> a == src || a in ToMap(r))
      && Destinations(out.sends) == Snapshot(Upsert(r, src, now))
      && (forall d :: d in out.sends ==> d.payload == payload.value)
    ensures payload.Some? && !IsChat(payload.value) ==>
      Snapshot(out.registry) == Snapshot(Upsert(r, src, now))
    ensures payload.Some? && IsChat(payload.value) ==>
      IsSubsequence(out.registry, Upsert(r, src, now))
    ensures Valid(r) ==> Valid(out.registry)
  {
    match payload
    case None => Step(r, [])
    case Some(message) =>
      var seen := Upsert(r, src, now);
      UpsertValid(r, src, now);
      if message == HEARTBEAT then
        Step(seen, [Datagram(HEARTBEAT_ACK, src)])
      else if message == HEARTBEAT_ACK then
        UpsertValid(seen, src, now);
        Step(Upsert(seen, src, now), [])
      else
        ToMapKeys(r);
        ToMapKeys(seen);
        Broadcast(seen, message, failing)
  }

  /** Whatever decoded payload arrives from `src`, afterwards `src` is
      tracked with last-seen `now`, unless the payload was chat and the
      relay's own send back to `src` failed. */
  lemma ReceiveRecordsSender(r: Registry, now: int, message: string, src: Address, failing: set<Address>)
    ensures var out := Receive(r, now, Some(message), src, failing);
      if IsChat(message) && src in failing then src !in ToMap(out.registry)
      else src in ToMap(out.registry) && ToMap(out.registry)[src] == now
  {
  }

  /** In a valid table a chat line reaches every tracked client, the sender
      included, exactly once. */
  lemma ReceiveChatOncePerClient(r: Registry, now: int, message: string, src: Address, failing: set<Address>)
    requires Valid(r)
    requires IsChat(message)
    ensures var out := Receive(r, now, Some(message), src, failing);
      && NoDuplicates(Destinations(out.sends))
      && |out.sends| == |ToMap(r)[src := now]|
  {
    UpsertValid(r, src, now);
    BroadcastOncePerClient(Upsert(r, src, now), message, failing);
  }

  /** A chat line is sent, verbatim, to its sender and to every tracked
      client. */
  lemma ReceiveChatReachesAll(r: Registry, now: int, message: string, src: Address, failing: set<Address>)
    requires IsChat(message)
    ensures var out := Receive(r, now, Some(message), src, failing);
      && Datagram(message, src) in out.sends
      && forall a :: a in ToMap(r) ==> Datagram(message, a) in out.sends
  {
    var sends := Receive(r, now, Some(message), src, failing).sends;
    assert forall a :: a in Destinations(sends) <==> a == src || a in ToMap(r);
    assert forall d :: d in sends ==> d.payload == message;
    forall a | a == src || a in ToMap(r)
      ensures Datagram(message, a) in sends
    {
      SentTo(sends, message, a);
    }
  }

  /** A run of sends that all carry `message` carries it to each of its
      destinations. */
  lemma SentTo(sends: seq<Datagram>, message: string, a: Address)
    requires a in Destinations(sends)
    requires forall d :: d in sends ==> d.payload == message
    ensures Datagram(message, a) in sends
  {
    var k :| 0 <= k < |sends| && Destinations(sends)[k] == a;
    assert sends[k] in sends;
  }

  // ---------------------------------------------------------------------
  // check_heartbeat

  /** `now - lastSeen > interval * 1.5`, scaled by two so that it stays in
      integers. */
  predicate Stale(now: int, lastSeen: int, interval: int)
  {
    2 * (now - lastSeen) > 3 * interval
  }

  /** The scaled test is the source's comparison against 1.5 intervals. */
  lemma StaleIsOneAndAHalfIntervals(now: int, lastSeen: int, interval: int)
    ensures Stale(now, lastSeen, interval) <==> (now - lastSeen) as real > interval as real * 1.5
  {
  }

  /** The addresses a sweep must drop: the ones whose probe fails and the
      ones silent for more than 1.5 intervals. */
  function Evictees(clients: map<Address, int>, now: int, interval: int, failing: set<Address>): set<Address>
  {
    set a | a in clients && (a in failing || Stale(now, clients[a], interval))
  }

  /** The outcome of `check_heartbeat`'s probing loop: the probes, in
      order, and the addresses marked for removal, in order. */
  datatype Probes = Probes(sends: seq<Datagram>, marked: seq<Address>)

  /** The probing loop of `check_heartbeat` over the snapshot: a
      `heartbeat` to every address; an address is marked when its send
      fails, or else when it is stale. */
  function Probe(snapshot: seq<Address>, clients: map<Address, int>, now: int, interval: int, failing: set<Address>): (out: Probes)
    requires forall a :: a in snapshot ==> a in clients
    ensures Destinations(out.sends) == snapshot
    ensures forall d :: d in out.sends ==> d.payload == HEARTBEAT
    ensures forall a :: a in out.marked <==> a in snapshot && (a in failing || Stale(now, clients[a], interval))
  {
    if snapshot == [] then Probes([], [])
    else
      var a := snapshot[0];
      var rest := Probe(snapshot[1..], clients, now, interval, failing);
      var sends' := [Datagram(HEARTBEAT, a)] + rest.sends;
      assert Destinations(sends') == [a] + Destinations(rest.sends);
      if a in failing then Probes(sends', [a] + rest.marked)
      else if Stale(now, clients[a], interval) then Probes(sends', [a] + rest.marked)
      else Probes(sends', rest.marked)
  }

  /** One wake-up of `check_heartbeat` at tick `now`: probes every client
      of the snapshot in table order, then pops the marked ones. Exactly
      the failing and the stale clients leave; nobody is added and the
      survivors keep their ticks. */
  function Sweep(r: Registry, now: int, interval: int, failing: set<Address>): (out: Step)
    ensures Destinations(out.sends) == Snapshot(r)
    ensures forall d :: d in out.sends ==> d.payload == HEARTBEAT
    ensures ToMap(out.registry) == ToMap(r) - Evictees(ToMap(r), now, interval, failing)
    ensures IsSubsequence(out.registry, r)
    ensures Valid(r) ==> Valid(out.registry)
  {
    var clients := ToMap(r);
    ToMapKeys(r);
    var probes := Probe(Snapshot(r), clients, now, interval, failing);
    var marked := probes.marked;
    assert Elements(marked) == Evictees(clients, now, interval, failing);
    WithoutValid(r, Elements(marked));
    WithoutSubsequence(r, Elements(marked));
    Step(PopAll(r, marked), probes.sends)
  }

  /** A client answering within exactly 1.5 intervals survives the sweep:
      the comparison is strict. */
  lemma SweepKeepsClientAtThreshold(r: Registry, now: int, interval: int, failing: set<Address>, a: Address)
    requires a in ToMap(r) && a !in failing
    requires (now - ToMap(r)[a]) as real == interval as real * 1.5
    ensures var out := Sweep(r, now, interval, failing);
      a in ToMap(out.registry) && ToMap(out.registry)[a] == ToMap(r)[a]
  {
  }

  /** A second sweep at the same tick with the same failures changes
      nothing: every survivor already answered and is fresh. */
  lemma SweepIdempotent(r: Registry, now: int, interval: int, failing: set<Address>)
    ensures var once := Sweep(r, now, interval, failing).registry;
      Sweep(once, now, interval, failing).registry == once
  {
    var once := Sweep(r, now, interval, failing).registry;
    ToMapKeys(once);
    var m := ToMap(once);
    assert Evictees(m, now, interval, failing) == {};
    var marked := Probe(Snapshot(once), m, now, interval, failing).marked;
    assert Elements(marked) == {};
  }
}

=== FILE: wire.dfy ===
/** What travels between the relay and its clients: addresses, datagrams and
    the two control payloads of the liveness protocol. */
module Wire {

  /** A UDP endpoint, the `(host, port)` tuple that `recvfrom` returns. */
  datatype Address = Address(host: string, port: int)

  /** One `sendto` attempt: a text payload and its destination. */
  datatype Datagram = Datagram(payload: string, dest: Address)

  /** Liveness probe. */
  const HEARTBEAT: string := "heartbeat"

  /** Reply to a liveness probe; never relayed. */
  const HEARTBEAT_ACK: string := "heartbeat_ack"

  /** A payload that is neither control message is a chat line. */
  predicate IsChat(payload: string)
  {
    payload != HEARTBEAT && payload != HEARTBEAT_ACK
  }

  /** The destinations of a run of sends, in order. */
  function Destinations(sends: seq<Datagram>): seq<Address>
  {
    seq(|sends|, i requires 0 <= i < |sends| => sends[i].dest)
  }

  /** No address occurs twice. */
  ghost predicate NoDuplicates(s: seq<Address>)
  {
    forall i, j :: 0 <= i < j < |s| ==> s[i] != s[j]
  }
}

=== FILE: wrappers.dfy ===
/** The optional-value type used across the model. */
module Wrappers {

  /** `None` stands for a missing value, e.g. a datagram that did not decode. */
  datatype Option<+T> = None | Some(value: T)
}
